=== FILE: README.md ===
# LS-8 CPU model

A Dafny model of the LS-8 virtual machine in `ls8/cpu.py`. The machine holds a
RAM, a register file, a program counter, a running flag and the two memory
interface registers MAR and MDR. Its loop fetches the byte at `pc` and compares
it against a three-entry opcode table: `LDI` (0b10000010), `PRN` (0b01000111)
and `HLT` (0b00000001). It then executes that instruction until `HLT` clears
the running flag.

The model has three modules:

- `Python` (`python.dfy`) covers the Python behaviour the CPU depends on.
  - List subscripts raise `IndexError` when out of range and count from the end when negative.
  - `[0] * n` builds the zeroed lists.
  - `^` and `&` on non-negative integers are defined bit by bit; `^` with a negative right operand follows Python's infinite two's complement.
  - `x & 255` is the remainder modulo 256. This also holds for negative `x`, because Python's `&` treats integers as infinite two's complement.
- `Ls8` (`cpu.dfy`) covers the CPU state and the `CPU` methods.
  - The state is the immutable record `Cpu`. It has one extra field, `out`, which lists the values `print` has written.
  - Each method is a pure function from the old state to the new one. A method that Python would abort with an exception returns `Err`.
  - `Step` is one pass of the body of the `run` loop.
- `Run` (`run.dfy`) covers the `run` loop. It is the fuel-bounded function `Run`, which repeats `Step` while `running` holds. This module also proves how the built-in program ends.

Points where the code's behaviour is easy to misread:

- **Memory size.** `2^bits` is exclusive or in Python, so `CPU()` allocates 2 XOR 8 = 10 RAM cells, not 256 (`MemorySize`, `DefaultMemorySize`). Because `load` then writes six bytes, construction raises `IndexError` for every width except 4, 5 and 8 or more; negative widths give empty lists and also raise (`NewSucceeds`).
- **Instruction set.** The opcode table has only `LDI`, `PRN` and `HLT`; there is no stack, no flags and no jump.
- **Masking.** Only `LDI` masks (`& 255`). The ALU adds without masking (`AluDoesNotMask`).
- **Unknown opcodes.** No branch of `run` matches an unknown byte. The fetch only sets MAR and MDR, and the loop spins for ever (`UnknownOpcodeIsFixpoint`, `UnknownOpcodeNeverStops`).
- **Stopping.** Only `HLT` clears the running flag, so only `HLT` ends the loop without an exception (`StopsOnlyAtHalt`).

In `ldi`, Python evaluates the right-hand side `current_value() & 255` before the subscript `current_reg()`. So MAR and MDR are left on the register operand (`pc + 1`), not on the value operand.

## Model

| member | source | states |
|---|---|---|
| Python.Xor | ls8/cpu.py:10 | `a ^ b` on non-negative integers is at most `a + b` and has the parity of `a + b` |
| Python.XorInt | ls8/cpu.py:10 | `a ^ b` for a non-negative `a` and any `b` (infinite two's complement) is negative exactly when `b` is |
| Python.XorIntTwo | ls8/cpu.py:10 | `2 ^ b` flips bit 1 of `b` for every integer `b`: it is `b + 2` when that bit is clear and `b - 2` when it is set |
| Python.XorBit | ls8/cpu.py:10 | `a ^ b` has bit k set exactly when bit k of `a` and bit k of `b` differ |
| Python.And | ls8/cpu.py:111 | `a & b` on non-negative integers is at most each operand and is odd exactly when both are |
| Python.AndLowOnes | ls8/cpu.py:111 | masking with k one-bits (`& (2^k - 1)`) leaves the remainder modulo 2^k |
| Python.Mask255 | ls8/cpu.py:111 | `x & 255` lies in 0..255, equals `x` when `x` is already a byte, and equals the bitwise `And(x, 255)` for non-negative `x` |
| Python.MaskNegative | ls8/cpu.py:111 | for a negative `x`, `x & 255` agrees with two's complement: it is `255 - (~x & 255)`, where `~x == -x - 1` |
| Python.Zeros | ls8/cpu.py:16-18 | `[0] * n` has `n` elements, none for a negative `n`, all zero |
| Python.Lookup | ls8/cpu.py:89 | `xs[i]` succeeds exactly when `i` is a valid subscript (`-len <= i < len`, negative counting from the end) and raises `IndexError` otherwise; what it returns after an assignment is stated by `LookupAfterAssign` |
| Python.Assign | ls8/cpu.py:97 | `xs[i] = v` succeeds exactly when `i` is a valid subscript and raises `IndexError` otherwise, keeping the list's length; the contents afterwards are stated by `LookupAfterAssign` |
| Python.LookupAfterAssign | ls8/cpu.py:94-98 | after `xs[i] = v`, reading `xs[i]` gives `v` and every other position reads as before |
| Ls8.Decode | ls8/cpu.py:30-34 | a byte that decodes to an instruction is that instruction's opcode |
| Ls8.DecodeOpcode | ls8/cpu.py:30-34 | decoding inverts the opcode table, and exactly the three bytes LDI, PRN, HLT decode |
| Ls8.MemorySize | ls8/cpu.py:10 | the RAM size `2^bits` is `bits + 2` or `bits - 2` according to bit 1 of `bits`, and negative exactly when `bits` is |
| Ls8.DefaultMemorySize | ls8/cpu.py:8-16 | with the default 8 bits, the RAM has 2 XOR 8 = 10 cells, not 256 |
| Ls8.WriteFrom | ls8/cpu.py:54-56 | the `load` loop succeeds exactly when the program fits; it puts the program bytes at consecutive addresses, keeps the length and leaves every other cell unchanged |
| Ls8.Load | ls8/cpu.py:38-56 | `load` raises `IndexError` exactly when RAM is shorter than the 6-byte program; otherwise addresses 0..5 hold the program, every other cell and every other field is unchanged |
| Ls8.New | ls8/cpu.py:8-28 | the constructor succeeds exactly when the program fits in `2 XOR bits` cells; then RAM has `2 XOR bits` cells holding the program then zeros, there are `bits` zero registers, `pc == 0`, running, MAR == MDR == 0, nothing printed |
| Ls8.NewSucceeds | ls8/cpu.py:10-28 | construction succeeds exactly for 4, 5 and 8 or more bits; every other width, negative ones included, raises `IndexError` |
| Ls8.RamRead | ls8/cpu.py:88-92 | `ram_read(a)` raises exactly when `a` is out of range; otherwise it returns `ram[a]`, sets MAR to `a` and MDR to the value, and changes nothing else |
| Ls8.RamWrite | ls8/cpu.py:94-98 | `ram_write(a, v)` raises exactly when `a` is out of range; otherwise `ram[a]` becomes `v`, other cells and the length are kept, MAR/MDR become `a`/`v`, nothing else changes, and it returns `(a, v)` |
| Ls8.ReadAfterWrite | ls8/cpu.py:88-98 | reading the address just written returns the written value and leaves the state as the write left it |
| Ls8.WriteKeepsOtherAddresses | ls8/cpu.py:88-98 | a write leaves the value read at every other address unchanged |
| Ls8.SaveReg | ls8/cpu.py:100-102 | `save_reg(r, v)` raises `IndexError` exactly when `r` is out of range; otherwise register `r` holds `v`, other registers are kept, `pc` advances by 3, nothing else changes |
| Ls8.Alu | ls8/cpu.py:59-66 | any op other than "ADD" raises "Unsupported ALU operation"; ADD raises `IndexError` exactly when a register index is out of range, otherwise `reg[a]` becomes the unmasked sum `reg[a] + reg[b]` and nothing else changes |
| Ls8.CurrentReg | ls8/cpu.py:104-105 | `current_reg()` raises `IndexError` exactly when `pc + 1` is out of range; otherwise it returns the byte at `pc + 1` and sets MAR/MDR to that address and byte, changing nothing else |
| Ls8.CurrentValue | ls8/cpu.py:107-108 | `current_value()` raises `IndexError` exactly when `pc + 2` is out of range; otherwise it returns the byte at `pc + 2` and sets MAR/MDR to that address and byte, changing nothing else |
| Ls8.AluDoesNotMask | ls8/cpu.py:62-63 | adding 100 to 200 stores 300, so after ADD a register can hold a value that is not a byte |
| Ls8.DoLdi | ls8/cpu.py:110-112 | LDI raises exactly when `pc+2`, `pc+1` or the named register is out of range; otherwise the register named by `ram[pc+1]` holds `ram[pc+2] & 255`, other registers, RAM, running and output are unchanged, `pc` advances by 3, MAR/MDR end at `pc+1`/`ram[pc+1]` |
| Ls8.LdiIsSaveReg | ls8/cpu.py:100-112 | LDI is `save_reg` of the masked value, applied after the two operand reads |
| Ls8.DoPrn | ls8/cpu.py:114-117 | PRN raises exactly when `pc+1` or the named register is out of range; otherwise it appends `reg[ram[pc+1]]` to the output, advances `pc` by 2, and keeps registers, RAM and running |
| Ls8.DoHalt | ls8/cpu.py:119-120 | HLT clears `running` and leaves `pc`, registers, RAM, output, MAR and MDR unchanged |
| Ls8.Fetched | ls8/cpu.py:125 | the fetch `ir = ram_read(pc)` returns the byte at `pc`, sets MAR to `pc` and MDR to that byte, and keeps `pc`, RAM, registers, running and output |
| Ls8.Step | ls8/cpu.py:124-134 | a pass of the loop raises if `pc` is out of range; it never writes RAM, keeps the register count, prints at most one value appended to the output, keeps every register a byte, and clears `running` only when the fetched byte is HLT |
| Ls8.StepDispatch | ls8/cpu.py:125-134 | after the fetch, a pass runs `ldi()` on an LDI byte, `prn()` on a PRN byte, `halt()` on an HLT byte, and nothing more on any other byte |
| Ls8.StepEffects | ls8/cpu.py:110-134 | on a pass whose subscripts are valid: LDI puts `ram[pc+2] & 255` in the register named by `ram[pc+1]`, keeps the other registers and moves `pc` by 3; PRN appends `reg[ram[pc+1]]` to the output, keeps the registers and moves `pc` by 2; HLT clears `running` and keeps `pc`, registers and output |
| Ls8.StepSucceeds | ls8/cpu.py:124-134 | a pass of the loop succeeds exactly when `pc` is in range and, for LDI and PRN, the operand addresses and the named register are in range |
| Ls8.UnknownOpcodeIsFixpoint | ls8/cpu.py:124-134 | a byte outside the opcode table only sets MAR/MDR, keeping `pc`, registers, RAM, running and output, and the resulting state is a fixpoint of the loop body |
| Run.Run | ls8/cpu.py:122-134 | the loop returns a stopped state only when `running` is false, returns at once when `running` is already false, never writes RAM, only appends to the output, and keeps registers bytes when they start as bytes |
| Run.RunContinues | ls8/cpu.py:122-134 | while `running` holds, a pass that does not raise hands its state to the next pass: `n + 1` passes from `s` are `n` passes from the state after one `Step` |
| Run.RunSplit | ls8/cpu.py:122-134 | running `a + b` passes is running `a` passes and then, if the loop is still going, `b` more from the state reached; a stop or an exception within `a` passes is final |
| Run.MoreFuel | ls8/cpu.py:122-134 | once the loop stops or raises within some number of passes, allowing more passes gives the same outcome |
| Run.RunAgain | ls8/cpu.py:122-124 | running again after the loop has stopped is a no-op |
| Run.HaltKeepsPc | ls8/cpu.py:119-134 | a pass that clears `running` fetched HLT and left `pc` on it |
| Run.StopsOnlyAtHalt | ls8/cpu.py:119-134 | a run that starts running and stops ends with `pc` on a HLT byte |
| Run.UnknownOpcodeNeverStops | ls8/cpu.py:122-134 | from a byte outside the opcode table the loop never stops: every number of passes runs out, with the state left as the fetch left it |
| Run.Initial | ls8/cpu.py:8-56 | `CPU()` with the default 8 bits constructs without raising |
| Run.BuiltInProgram | ls8/cpu.py:44-134 | `CPU().run()` takes exactly three passes (LDI, PRN, HLT). It ends with output `[8]`, `reg[0] == 8`, `pc == 5` and `running` false |
| Run.BuiltInProgramAnyFuel | ls8/cpu.py:44-134 | with any allowance of three or more passes, the built-in program ends in that same state |

## Left out

- `trace` (ls8/cpu.py:68-86) formats and prints diagnostics only. The model prints nothing. `PRN` appends the value to the `out` list instead of writing its decimal text.
- The module-level script `pc = CPU(); pc.run(); pc.trace()` (ls8/cpu.py:136-138) is process startup. `BuiltInProgram` models what its `CPU()` and `run()` compute.
- Run: the Python loop has no bound, but the model has to stop. `Run` takes a fuel count of loop passes and reports `OutOfFuel` when the count runs out. `UnknownOpcodeNeverStops` stands in for the non-terminating case.
- The state an exception leaves behind is not modelled. Every failing operation returns `Err` without a state. In Python, `ram_write` sets MAR and MDR before the subscript raises, and `load` writes some cells before it fails.
- Register and memory cells are unbounded integers, as in Python. `ram_write` and `alu` may store any integer.

=== FILE: cpu.dfy ===
/**
 The LS-8 CPU: its state, its constructor and program loader, the memory and
 register accessors, the ALU, and the three instructions it executes.

 Every operation is a pure function from the CPU state before the call to the
 state after it. An operation that Python would abort with an exception returns
 `Err` instead; the partial effects it had before raising are not kept.
 */
module Ls8 {
  import opened Python

  // ---------------------------------------------------------------------------
  // Opcodes
  // ---------------------------------------------------------------------------

  const LDI: int := 0x82  // 0b10000010
  const PRN: int := 0x47  // 0b01000111
  const HLT: int := 0x01  // 0b00000001

  /** The instructions in the opcode table. */
  datatype Instr = Ldi | Prn | Hlt

  function Opcode(i: Instr): int {
    match i
    case Ldi => LDI
    case Prn => PRN
    case Hlt => HLT
  }

  /** The comparisons of the fetched byte against the opcode table. */
  function Decode(ir: int): (r: Option<Instr>)
    ensures r.Some? ==> Opcode(r.value) == ir
  {
    if ir == LDI then Some(Ldi)
    else if ir == PRN then Some(Prn)
    else if ir == HLT then Some(Hlt)
    else None
  }

  /** Decoding inverts the opcode table, and only its three bytes decode. */
  lemma DecodeOpcode(i: Instr, ir: int)
    ensures Decode(Opcode(i)) == Some(i)
    ensures Decode(ir).Some? <==> ir in {LDI, PRN, HLT}
  {
  }

  // ---------------------------------------------------------------------------
  // State
  // ---------------------------------------------------------------------------

  /** The attributes of a CPU object, plus the lines `print` has written. */
  datatype Cpu = Cpu(
    ram: seq<int>,
    reg: seq<int>,
    pc: int,
    running: bool,
    mar: int,       // address last read or written
    mdr: int,       // value last read or written
    out: seq<int>   // the values PRN has printed, oldest first
  )

  /** The program `load` writes, from print8.ls8: LDI R0,8; PRN R0; HLT. */
  const Program: seq<int> := [LDI, 0, 8, PRN, 0, HLT]

  /** The value `2^bits` the constructor takes as its RAM size. In Python `^`
      is exclusive or, which flips bit 1 of `bits`, so the size is `bits` plus
      or minus 2, and negative exactly when `bits` is. */
  function MemorySize(bits: int): (r: int)
    ensures r == if (bits / 2) % 2 == 0 then bits + 2 else bits - 2
    ensures r < 0 <==> bits < 0
  {
    XorIntTwo(bits);
    XorInt(2, bits)
  }

  lemma DefaultMemorySize()
    ensures MemorySize(8) == 10
  {
  }

  /** Every register holds a byte. */
  predicate RegsAreBytes(s: Cpu) {
    forall k :: 0 <= k < |s.reg| ==> 0 <= s.reg[k] <= 255
  }

  // ---------------------------------------------------------------------------
  // Construction and loading
  // ---------------------------------------------------------------------------

  /** The loop of `load`: writes `prog` into `ram` from address `at` on. */
  function WriteFrom(ram: seq<int>, prog: seq<int>, at: nat): (r: Result<seq<int>>)
    requires at <= |ram|
    ensures r.Ok? <==> at + |prog| <= |ram|
    ensures r.Err? ==> r.error == IndexError
    ensures r.Ok? ==> |r.value| == |ram|
    ensures r.Ok? ==> forall k :: 0 <= k < |prog| ==> r.value[at + k] == prog[k]
    ensures r.Ok? ==> forall k :: 0 <= k < |ram| && !(at <= k < at + |prog|) ==> r.value[k] == ram[k]
    decreases |prog|
  {
    if prog == [] then Ok(ram)
    else
      var ram' :- Assign(ram, at, prog[0]);
      WriteFrom(ram', prog[1..], at + 1)
  }

  /** `load`: places `Program` at addresses 0 to 5. */
  function Load(s: Cpu): (r: Result<Cpu>)
    ensures r.Ok? <==> |Program| <= |s.ram|
    ensures r.Err? ==> r.error == IndexError
    ensures r.Ok? ==> |r.value.ram| == |s.ram|
    ensures r.Ok? ==> r.value.ram[..|Program|] == Program
    ensures r.Ok? ==> forall k :: |Program| <= k < |s.ram| ==> r.value.ram[k] == s.ram[k]
    ensures r.Ok? ==> r.value == s.(ram := r.value.ram)
  {
    var ram' :- WriteFrom(s.ram, Program, 0);
    Ok(s.(ram := ram'))
  }

  /** `CPU(bits)`: zeroed RAM of `MemorySize(bits)` cells, `bits` zeroed
      registers (`[0] * n` is empty for a negative `n`), then `load`, which
      raises unless the program fits. */
  function New(bits: int): (r: Result<Cpu>)
    ensures r.Ok? <==> |Program| <= MemorySize(bits)
    ensures r.Err? ==> r.error == IndexError
    ensures r.Ok? ==> |r.value.ram| == MemorySize(bits) && |r.value.reg| == bits
    ensures r.Ok? ==> r.value.ram[..|Program|] == Program
    ensures r.Ok? ==> forall k :: |Program| <= k < |r.value.ram| ==> r.value.ram[k] == 0
    ensures r.Ok? ==> forall k :: 0 <= k < bits ==> r.value.reg[k] == 0
    ensures r.Ok? ==> r.value.pc == 0 && r.value.running
    ensures r.Ok? ==> r.value.mar == 0 && r.value.mdr == 0 && r.value.out == []
  {
    Load(Cpu(Zeros(MemorySize(bits)), Zeros(bits), 0, true, 0, 0, []))
  }

  /** Because of the exclusive or, construction succeeds for 4, 5 and every
      width from 8 on, and raises for 0 to 3, 6 and 7. */
  lemma NewSucceeds(bits: int)
    ensures New(bits).Ok? <==> bits == 4 || bits == 5 || bits >= 8
  {
  }

  // ---------------------------------------------------------------------------
  // Memory and register accessors
  // ---------------------------------------------------------------------------

  /** A state paired with the value an accessor returned. */
  datatype Read = Read(cpu: Cpu, value: int)

  /** A state paired with the `(address, value)` tuple `ram_write` returns. */
  datatype Written = Written(cpu: Cpu, echo: (int, int))

  /** `ram_read(a)` */
  function RamRead(s: Cpu, a: int): (r: Result<Read>)
    ensures r.Ok? <==> InRange(|s.ram|, a)
    ensures r.Err? ==> r.error == IndexError
    ensures r.Ok? ==> Lookup(s.ram, a) == Ok(r.value.value)
    ensures r.Ok? ==> r.value.cpu == s.(mar := a, mdr := r.value.value)
  {
    var v :- Lookup(s.ram, a);
    Ok(Read(s.(mar := a, mdr := v), v))
  }

  /** `ram_write(a, v)` */
  function RamWrite(s: Cpu, a: int, v: int): (r: Result<Written>)
    ensures r.Ok? <==> InRange(|s.ram|, a)
    ensures r.Err? ==> r.error == IndexError
    ensures r.Ok? ==> r.value.echo == (a, v)
    ensures r.Ok? ==> Lookup(r.value.cpu.ram, a) == Ok(v)
    ensures r.Ok? ==> |r.value.cpu.ram| == |s.ram|
    ensures r.Ok? ==> forall k :: 0 <= k < |s.ram| && k != Slot(|s.ram|, a) ==> r.value.cpu.ram[k] == s.ram[k]
    ensures r.Ok? ==> r.value.cpu == s.(ram := r.value.cpu.ram, mar := a, mdr := v)
  {
    var ram' :- Assign(s.ram, a, v);
    Ok(Written(s.(mar := a, mdr := v, ram := ram'), (a, v)))
  }

  /** Reading back the address just written returns the written value and
      leaves the state exactly as the write left it. */
  lemma ReadAfterWrite(s: Cpu, a: int, v: int)
    requires RamWrite(s, a, v).Ok?
    ensures RamRead(RamWrite(s, a, v).value.cpu, a) == Ok(Read(RamWrite(s, a, v).value.cpu, v))
  {
  }

  /** A write does not disturb what any other address reads. */
  lemma WriteKeepsOtherAddresses(s: Cpu, a: int, v: int, b: int)
    requires RamWrite(s, a, v).Ok? && InRange(|s.ram|, b) && Slot(|s.ram|, b) != Slot(|s.ram|, a)
    ensures RamRead(RamWrite(s, a, v).value.cpu, b).value.value == RamRead(s, b).value.value
  {
  }

  /** `save_reg(r, v)` */
  function SaveReg(s: Cpu, r: int, v: int): (t: Result<Cpu>)
    ensures t.Ok? <==> InRange(|s.reg|, r)
    ensures t.Err? ==> t.error == IndexError
    ensures t.Ok? ==> Lookup(t.value.reg, r) == Ok(v)
    ensures t.Ok? ==> |t.value.reg| == |s.reg| && t.value.pc == s.pc + 3
    ensures t.Ok? ==> forall k :: 0 <= k < |s.reg| && k != Slot(|s.reg|, r) ==> t.value.reg[k] == s.reg[k]
    ensures t.Ok? ==> t.value == s.(reg := t.value.reg, pc := s.pc + 3)
  {
    var reg' :- Assign(s.reg, r, v);
    Ok(s.(reg := reg', pc := s.pc + 3))
  }

  /** The memory byte at `pc + k`, when that subscript is valid. */
  function Operand(s: Cpu, k: int): int
    requires InRange(|s.ram|, s.pc + k)
  {
    s.ram[Slot(|s.ram|, s.pc + k)]
  }

  /** `current_reg()`: the operand byte after the opcode. */
  function CurrentReg(s: Cpu): (r: Result<Read>)
    ensures r.Ok? <==> InRange(|s.ram|, s.pc + 1)
    ensures r.Err? ==> r.error == IndexError
    ensures r.Ok? ==> r.value.value == Operand(s, 1)
    ensures r.Ok? ==> r.value.cpu == s.(mar := s.pc + 1, mdr := Operand(s, 1))
  {
    RamRead(s, s.pc + 1)
  }

  /** `current_value()`: the second operand byte. */
  function CurrentValue(s: Cpu): (r: Result<Read>)
    ensures r.Ok? <==> InRange(|s.ram|, s.pc + 2)
    ensures r.Err? ==> r.error == IndexError
    ensures r.Ok? ==> r.value.value == Operand(s, 2)
    ensures r.Ok? ==> r.value.cpu == s.(mar := s.pc + 2, mdr := Operand(s, 2))
  {
    RamRead(s, s.pc + 2)
  }

  // ---------------------------------------------------------------------------
  // ALU
  // ---------------------------------------------------------------------------

  /** `alu(op, a, b)`: only "ADD" exists, and its sum is not masked. */
  function Alu(s: Cpu, op: string, a: int, b: int): (r: Result<Cpu>)
    ensures op != "ADD" ==> r == Err(Exception("Unsupported ALU operation"))
    ensures op == "ADD" ==> (r.Ok? <==> InRange(|s.reg|, a) && InRange(|s.reg|, b))
    ensures op == "ADD" && r.Err? ==> r.error == IndexError
    ensures r.Ok? ==> Lookup(r.value.reg, a) == Ok(s.reg[Slot(|s.reg|, a)] + s.reg[Slot(|s.reg|, b)])
    ensures r.Ok? ==> |r.value.reg| == |s.reg|
    ensures r.Ok? ==> forall k :: 0 <= k < |s.reg| && k != Slot(|s.reg|, a) ==> r.value.reg[k] == s.reg[k]
    ensures r.Ok? ==> r.value == s.(reg := r.value.reg)
  {
    if op == "ADD" then
      var x :- Lookup(s.reg, a);
      var y :- Lookup(s.reg, b);
      var reg' :- Assign(s.reg, a, x + y);
      Ok(s.(reg := reg'))
    else
      Err(Exception("Unsupported ALU operation"))
  }

  /** The ALU can leave a register outside the byte range: 200 + 100 is stored as 300. */
  lemma AluDoesNotMask(s: Cpu)
    requires |s.reg| == 8 && s.reg[0] == 200 && s.reg[1] == 100
    ensures Alu(s, "ADD", 0, 1).Ok?
    ensures Alu(s, "ADD", 0, 1).value.reg[0] == 300
    ensures !RegsAreBytes(Alu(s, "ADD", 0, 1).value)
  {
    assert Lookup(Alu(s, "ADD", 0, 1).value.reg, 0) == Ok(300);
  }

  // ---------------------------------------------------------------------------
  // Instructions
  // ---------------------------------------------------------------------------

  /** `ldi()`: the right-hand side `current_value() & 255` is evaluated before
      the subscript `current_reg()`, so MAR and MDR end on the register byte. */
  function DoLdi(s: Cpu): (r: Result<Cpu>)
    ensures r.Ok? <==> InRange(|s.ram|, s.pc + 2) && InRange(|s.ram|, s.pc + 1)
                       && InRange(|s.reg|, Operand(s, 1))
    ensures r.Err? ==> r.error == IndexError
    ensures r.Ok? ==> Lookup(r.value.reg, Operand(s, 1)) == Ok(Mask255(Operand(s, 2)))
    ensures r.Ok? ==> |r.value.reg| == |s.reg|
    ensures r.Ok? ==> forall k :: 0 <= k < |s.reg| && k != Slot(|s.reg|, Operand(s, 1)) ==> r.value.reg[k] == s.reg[k]
    ensures r.Ok? ==> r.value.pc == s.pc + 3
    ensures r.Ok? ==> r.value.mar == s.pc + 1 && r.value.mdr == Operand(s, 1)
    ensures r.Ok? ==> r.value.ram == s.ram && r.value.running == s.running && r.value.out == s.out
  {
    var value :- CurrentValue(s);
    var index :- CurrentReg(value.cpu);
    var s2 := index.cpu;
    var reg' :- Assign(s2.reg, index.value, Mask255(value.value));
    Ok(s2.(reg := reg', pc := s2.pc + 3))
  }

  /** `ldi()` is `save_reg` of the masked value, after the two operand reads. */
  lemma LdiIsSaveReg(s: Cpu)
    requires InRange(|s.ram|, s.pc + 2) && InRange(|s.ram|, s.pc + 1)
    ensures DoLdi(s) == SaveReg(s.(mar := s.pc + 1, mdr := Operand(s, 1)), Operand(s, 1), Mask255(Operand(s, 2)))
  {
  }

  /** `prn()`: prints the register named by the operand byte. */
  function DoPrn(s: Cpu): (r: Result<Cpu>)
    ensures r.Ok? <==> InRange(|s.ram|, s.pc + 1) && InRange(|s.reg|, Operand(s, 1))
    ensures r.Err? ==> r.error == IndexError
    ensures r.Ok? ==> |r.value.out| == |s.out| + 1 && r.value.out[..|s.out|] == s.out
    ensures r.Ok? ==> Lookup(s.reg, Operand(s, 1)) == Ok(r.value.out[|s.out|])
    ensures r.Ok? ==> r.value.pc == s.pc + 2
    ensures r.Ok? ==> r.value.mar == s.pc + 1 && r.value.mdr == Operand(s, 1)
    ensures r.Ok? ==> r.value.ram == s.ram && r.value.reg == s.reg && r.value.running == s.running
  {
    var index :- CurrentReg(s);
    var s1 := index.cpu;
    var x :- Lookup(s1.reg, index.value);
    Ok(s1.(out := s1.out + [x], pc := s1.pc + 2))
  }

  /** `halt()` */
  function DoHalt(s: Cpu): (r: Cpu)
    ensures !r.running
    ensures r.pc == s.pc && r.reg == s.reg && r.ram == s.ram && r.out == s.out
    ensures r.mar == s.mar && r.mdr == s.mdr
  {
    s.(running := false)
  }

  /** The state after the fetch `ir = ram_read(pc)` when `pc` is a valid address. */
  function Fetched(s: Cpu): (r: Cpu)
    requires InRange(|s.ram|, s.pc)
    ensures RamRead(s, s.pc) == Ok(Read(r, r.mdr))
    ensures Lookup(s.ram, s.pc) == Ok(r.mdr) && r.mar == s.pc
    ensures r.pc == s.pc && r.ram == s.ram && r.reg == s.reg && r.running == s.running && r.out == s.out
  {
    s.(mar := s.pc, mdr := Operand(s, 0))
  }

  /** One pass of the body of the loop in `run`: fetch, then dispatch on the
      opcode table; a byte outside the table matches no branch. */
  function Step(s: Cpu): (r: Result<Cpu>)
    ensures !InRange(|s.ram|, s.pc) ==> r == Err(IndexError)
    ensures r.Err? ==> r.error == IndexError
    ensures r.Ok? ==> r.value.ram == s.ram && |r.value.reg| == |s.reg|
    ensures r.Ok? ==> r.value.out == s.out || (|r.value.out| == |s.out| + 1 && r.value.out[..|s.out|] == s.out)
    ensures r.Ok? && RegsAreBytes(s) ==> RegsAreBytes(r.value)
    ensures r.Ok? && !r.value.running ==> !s.running || Operand(s, 0) == HLT
  {
    var fetch :- RamRead(s, s.pc);
    var s1 := fetch.cpu;
    match Decode(fetch.value)
    case Some(Ldi) => DoLdi(s1)
    case Some(Prn) => DoPrn(s1)
    case Some(Hlt) => Ok(DoHalt(s1))
    case None => Ok(s1)
  }

  /** After the fetch, a pass of the loop runs the instruction the fetched
      byte names, and does nothing more for a byte outside the table. */
  lemma StepDispatch(s: Cpu)
    requires InRange(|s.ram|, s.pc)
    ensures Operand(s, 0) == LDI ==> Step(s) == DoLdi(Fetched(s))
    ensures Operand(s, 0) == PRN ==> Step(s) == DoPrn(Fetched(s))
    ensures Operand(s, 0) == HLT ==> Step(s) == Ok(DoHalt(Fetched(s)))
    ensures Decode(Operand(s, 0)) == None ==> Step(s) == Ok(Fetched(s))
  {
  }

  /** What a pass of the loop does to the state it starts from, by opcode:
      LDI loads the masked byte into the named register and moves `pc` by 3,
      PRN prints the named register and moves `pc` by 2, HLT clears the
      running flag and leaves `pc` where it is. */
  lemma StepEffects(s: Cpu)
    requires InBounds(s)
    ensures Operand(s, 0) == LDI ==>
      && Lookup(Step(s).value.reg, Operand(s, 1)) == Ok(Mask255(Operand(s, 2)))
      && (forall k :: 0 <= k < |s.reg| && k != Slot(|s.reg|, Operand(s, 1)) ==> Step(s).value.reg[k] == s.reg[k])
      && Step(s).value.pc == s.pc + 3 && Step(s).value.running == s.running && Step(s).value.out == s.out
    ensures Operand(s, 0) == PRN ==>
      && Lookup(s.reg, Operand(s, 1)) == Ok(Step(s).value.out[|s.out|])
      && Step(s).value.out == s.out + [Step(s).value.out[|s.out|]]
      && Step(s).value.pc == s.pc + 2 && Step(s).value.reg == s.reg && Step(s).value.running == s.running
    ensures Operand(s, 0) == HLT ==>
      && !Step(s).value.running
      && Step(s).value.pc == s.pc && Step(s).value.reg == s.reg && Step(s).value.out == s.out
  {
  }

  /** The subscripts a pass of the loop takes are all valid: the opcode
      address, and for LDI and PRN their operand addresses and the register
      the first operand names. */
  predicate InBounds(s: Cpu) {
    && InRange(|s.ram|, s.pc)
    && (Operand(s, 0) == LDI ==>
          InRange(|s.ram|, s.pc + 2) && InRange(|s.ram|, s.pc + 1) && InRange(|s.reg|, Operand(s, 1)))
    && (Operand(s, 0) == PRN ==>
          InRange(|s.ram|, s.pc + 1) && InRange(|s.reg|, Operand(s, 1)))
  }

  /** A pass of the loop raises `IndexError` exactly when a subscript is out of range. */
  lemma StepSucceeds(s: Cpu)
    ensures Step(s).Ok? <==> InBounds(s)
  {
  }

  /** A byte outside the opcode table only moves MAR and MDR; the state it
      leaves decodes the same byte again, so the loop body leaves it fixed. */
  lemma UnknownOpcodeIsFixpoint(s: Cpu)
    requires InRange(|s.ram|, s.pc) && Decode(Operand(s, 0)) == None
    ensures Step(s) == Ok(Fetched(s))
    ensures Step(Fetched(s)) == Ok(Fetched(s))
    ensures Fetched(s).pc == s.pc && Fetched(s).reg == s.reg && Fetched(s).ram == s.ram
    ensures Fetched(s).running == s.running && Fetched(s).out == s.out
  {
  }
}

=== FILE: python.dfy ===
/**
 The slice of Python semantics the LS-8 CPU relies on: list subscripts that
 raise `IndexError` (and count from the end when negative), `[0] * n`, and the
 bitwise operators `^` and `&`, defined bit by bit on non-negative integers.
 */
module Python {

  /** The exceptions the modelled code can raise. */
  datatype Error = IndexError | Exception(message: string)

  /** A value, or the exception that was raised instead of producing it;
      `:-` passes the exception on, as Python propagates an uncaught one. */
  datatype Result<+T> = Ok(value: T) | Err(error: Error) {

    predicate IsFailure() {
      Err?
    }

    function PropagateFailure<U>(): Result<U>
      requires Err?
    {
      Err(error)
    }

    function Extract(): T
      requires Ok?
    {
      value
    }
  }

  /** A value, or nothing. */
  datatype Option<+T> = None | Some(value: T)

  // ---------------------------------------------------------------------------
  // Lists
  // ---------------------------------------------------------------------------

  /** `i` is a valid subscript of a list of length `n`; negative subscripts count from the end. */
  predicate InRange(n: nat, i: int) {
    -(n as int) <= i < n
  }

  /** The position that the valid subscript `i` denotes in a list of length `n`. */
  function Slot(n: nat, i: int): (k: nat)
    requires InRange(n, i)
    ensures k < n
    ensures k == i || k == i + n
  {
    if i < 0 then i + n else i
  }

  /** `xs[i]` */
  function Lookup<T>(xs: seq<T>, i: int): (r: Result<T>)
    ensures r.Ok? <==> InRange(|xs|, i)
    ensures r.Err? ==> r.error == IndexError
  {
    if InRange(|xs|, i) then Ok(xs[Slot(|xs|, i)]) else Err(IndexError)
  }

  /** `xs[i] = v`, giving the updated list */
  function Assign<T>(xs: seq<T>, i: int, v: T): (r: Result<seq<T>>)
    ensures r.Ok? <==> InRange(|xs|, i)
    ensures r.Err? ==> r.error == IndexError
    ensures r.Ok? ==> |r.value| == |xs|
  {
    if InRange(|xs|, i) then Ok(xs[Slot(|xs|, i) := v]) else Err(IndexError)
  }

  /** Reading a subscript just assigned gives the assigned value, and every
      other position reads as before. */
  lemma LookupAfterAssign<T>(xs: seq<T>, i: int, v: T, j: int)
    requires Assign(xs, i, v).Ok?
    ensures Lookup(Assign(xs, i, v).value, i) == Ok(v)
    ensures InRange(|xs|, j) && Slot(|xs|, j) != Slot(|xs|, i) ==>
              Lookup(Assign(xs, i, v).value, j) == Lookup(xs, j)
  {
  }

  /** `[0] * n`, which is empty when `n` is negative. */
  function Zeros(n: int): (r: seq<int>)
    ensures |r| == if n < 0 then 0 else n
    ensures forall k :: 0 <= k < |r| ==> r[k] == 0
  {
    seq(if n < 0 then 0 else n, _ => 0)
  }

  // ---------------------------------------------------------------------------
  // Bitwise operators on non-negative integers
  // ---------------------------------------------------------------------------

  /** Bit `k` of `x` in binary. */
  function Bit(x: nat, k: nat): bool {
    if k == 0 then x % 2 == 1 else Bit(x / 2, k - 1)
  }

  function Pow2(k: nat): (r: nat)
    ensures r >= 1
  {
    if k == 0 then 1 else 2 * Pow2(k - 1)
  }

  /** `a ^ b`: exclusive or, computed bit by bit from the least significant end. */
  function Xor(a: nat, b: nat): (r: nat)
    ensures r <= a + b
    ensures r % 2 == (a + b) % 2
    decreases a + b
  {
    if a == 0 then b
    else if b == 0 then a
    else 2 * Xor(a / 2, b / 2) + (if a % 2 == b % 2 then 0 else 1)
  }

  /** `a ^ b` for a non-negative `a` and any `b`. Python's integers behave as
      infinite two's complement, so for a negative `b` the result is
      `~(a ^ ~b)`, where `~x == -x - 1` and `~b` is non-negative. */
  function XorInt(a: nat, b: int): (r: int)
    ensures r < 0 <==> b < 0
  {
    if b >= 0 then Xor(a, b) else -(Xor(a, -b - 1) as int) - 1
  }

  /** Exclusive or with 2 flips bit 1: it adds 2 when that bit is clear and
      subtracts 2 when it is set. */
  lemma XorTwo(b: nat)
    ensures Xor(2, b) == if (b / 2) % 2 == 0 then b + 2 else b - 2
  {
    if b > 0 {
      var c := b / 2;
      assert Xor(1, c) == if c % 2 == 0 then c + 1 else c - 1;
      assert Xor(2, b) == 2 * Xor(1, c) + b % 2;
    }
  }

  /** The same flip of bit 1 holds for every integer, negative ones included. */
  lemma {:induction false} XorIntTwo(b: int)
    ensures XorInt(2, b) == if (b / 2) % 2 == 0 then b + 2 else b - 2
  {
    if b >= 0 {
      XorTwo(b);
    } else {
      var c := -b - 1;
      XorTwo(c);
      var q, t := b / 4, b % 4;
      assert b == 4 * q + t;
      assert c == 4 * (-q - 1) + (3 - t);
      assert (c / 2) % 2 == (if 3 - t >= 2 then 1 else 0);
      assert (b / 2) % 2 == (if t >= 2 then 1 else 0);
    }
  }

  /** `a & b` */
  function And(a: nat, b: nat): (r: nat)
    ensures r <= a && r <= b
    ensures r % 2 == 1 <==> a % 2 == 1 && b % 2 == 1
    decreases a + b
  {
    if a == 0 || b == 0 then 0
    else 2 * And(a / 2, b / 2) + (if a % 2 == 1 && b % 2 == 1 then 1 else 0)
  }

  lemma ZeroHasNoBits(k: nat)
    ensures !Bit(0, k)
  {
  }

  /** `Xor` sets exactly the bits on which its operands differ. */
  lemma {:induction false} XorBit(a: nat, b: nat, k: nat)
    ensures Bit(Xor(a, b), k) <==> Bit(a, k) != Bit(b, k)
    decreases k
  {
    ZeroHasNoBits(k);
    if a != 0 && b != 0 && k != 0 {
      XorBit(a / 2, b / 2, k - 1);
    }
  }

  /** `And` sets exactly the bits set in both operands. */
  lemma {:induction false} AndBit(a: nat, b: nat, k: nat)
    ensures Bit(And(a, b), k) <==> Bit(a, k) && Bit(b, k)
    decreases k
  {
    ZeroHasNoBits(k);
    if a != 0 && b != 0 && k != 0 {
      AndBit(a / 2, b / 2, k - 1);
    }
  }

  /** Euclidean division is unique: a quotient/remainder pair fixes the remainder. */
  lemma ModUnique(v: int, d: int, q: int, r: int)
    requires d > 0 && 0 <= r < d && v == d * q + r
    ensures v % d == r
  {
    var q0, r0 := v / d, v % d;
    assert v == d * q0 + r0;
    MulDistribSub(d, q, q0);
    MulSmall(d, q - q0);
  }

  lemma MulDistribSub(d: int, a: int, b: int)
    ensures d * (a - b) == d * a - d * b
  {
  }

  /** A multiple of `d` strictly between `-d` and `d` is zero. */
  lemma MulSmall(d: int, x: int)
    requires d > 0 && -d < d * x < d
    ensures x == 0
  {
  }

  lemma ModDouble(v: nat, m: nat)
    requires m > 0
    ensures v % (2 * m) == 2 * ((v / 2) % m) + v % 2
  {
    var q := v / 2;
    assert q == m * (q / m) + q % m;
    assert v == (2 * m) * (q / m) + (2 * (q % m) + v % 2);
    ModUnique(v, 2 * m, q / m, 2 * (q % m) + v % 2);
  }

  /** Peeling the lowest bit off a mask that ends in a one-bit. */
  lemma AndOddMask(v: nat, c: nat)
    ensures And(v, 2 * c + 1) == 2 * And(v / 2, c) + v % 2
  {
    assert (2 * c + 1) / 2 == c && (2 * c + 1) % 2 == 1;
  }

  /** Masking with `k` one-bits keeps the remainder modulo `2^k`. */
  lemma {:induction false} AndLowOnes(v: nat, k: nat)
    ensures And(v, Pow2(k) - 1) == v % Pow2(k)
    decreases k
  {
    if k > 0 {
      var m := Pow2(k - 1);
      assert Pow2(k) == 2 * m;
      AndOddMask(v, m - 1);
      AndLowOnes(v / 2, k - 1);
      ModDouble(v, m);
    }
  }

  /** The mask written `x & 255` is the remainder of `x` modulo 256. */
  function Mask255(x: int): (r: int)
    ensures 0 <= r <= 255
    ensures 0 <= x <= 255 ==> r == x
    ensures x >= 0 ==> r == And(x, 255)
  {
    AndLowOnes(if x >= 0 then x else 0, 8);
    x % 256
  }

  /** For a negative `x`, `x & 255` in two's complement is `255 - (~x & 255)`,
      where `~x == -x - 1` is non-negative; the remainder modulo 256 agrees. */
  lemma MaskNegative(x: int)
    requires x < 0
    ensures Mask255(x) == 255 - And(-x - 1, 255)
  {
    assert Mask255(-x - 1) == And(-x - 1, 255);
  }
}

=== FILE: run.dfy ===
/**
 The `run` loop of the LS-8 CPU: repeat `Step` while the running flag is set.

 The loop has no way out other than `HLT` or an exception, so `Run` carries a
 fuel bound on the number of passes and reports when it is used up.
 */
module Run {
  import opened Python
  import opened Ls8

  /** How a fuel-bounded run ended. */
  datatype Outcome =
    | Stopped(cpu: Cpu)     // the loop exited: `running` was false
    | Raised(error: Error)  // a pass of the loop raised
    | OutOfFuel(cpu: Cpu)   // still running after the allowed passes

  /** `run()`, allowed at most `fuel` passes of the loop body. */
  function Run(s: Cpu, fuel: nat): (r: Outcome)
    ensures !s.running ==> r == Stopped(s)
    ensures r.Stopped? ==> !r.cpu.running
    ensures r.OutOfFuel? ==> r.cpu.running
    ensures r.Raised? ==> r.error == IndexError
    ensures !r.Raised? ==> r.cpu.ram == s.ram && |r.cpu.reg| == |s.reg|
    ensures !r.Raised? ==> |s.out| <= |r.cpu.out| && r.cpu.out[..|s.out|] == s.out
    ensures !r.Raised? && RegsAreBytes(s) ==> RegsAreBytes(r.cpu)
    decreases fuel
  {
    if !s.running then Stopped(s)
    else if fuel == 0 then OutOfFuel(s)
    else
      match Step(s)
      case Err(e) => Raised(e)
      case Ok(t) => Run(t, fuel - 1)
  }

  /** Once the loop has stopped or raised, more fuel changes nothing. */
  lemma {:induction false} MoreFuel(s: Cpu, fuel: nat, more: nat)
    requires fuel <= more && !Run(s, fuel).OutOfFuel?
    ensures Run(s, more) == Run(s, fuel)
    decreases fuel
  {
    if s.running && fuel > 0 && Step(s).Ok? {
      MoreFuel(Step(s).value, fuel - 1, more - 1);
    }
  }

  /** The loop body is repeated: while running, a pass that does not raise
      hands its state on to the next pass. */
  lemma RunContinues(s: Cpu, fuel: nat)
    requires s.running && Step(s).Ok?
    ensures Run(s, fuel + 1) == Run(Step(s).value, fuel)
  {
  }

  /** Running for `a + b` passes is running for `a` passes and, if the loop is
      still going, resuming from that state for `b` more. */
  lemma {:induction false} RunSplit(s: Cpu, a: nat, b: nat)
    ensures Run(s, a + b) == if Run(s, a).OutOfFuel? then Run(Run(s, a).cpu, b) else Run(s, a)
    decreases a
  {
    if !s.running {
      assert Run(s, a) == Stopped(s) && Run(s, a + b) == Stopped(s);
    } else if a == 0 {
      assert Run(s, a) == OutOfFuel(s);
    } else if Step(s).Err? {
      assert Run(s, a) == Raised(Step(s).error) == Run(s, a + b);
    } else {
      var t := Step(s).value;
      RunContinues(s, a - 1 + b);
      RunContinues(s, a - 1);
      RunSplit(t, a - 1, b);
    }
  }

  /** Running again after the loop has stopped is a no-op. */
  lemma RunAgain(s: Cpu, fuel: nat, again: nat)
    requires Run(s, fuel).Stopped?
    ensures Run(Run(s, fuel).cpu, again) == Run(s, fuel)
  {
  }

  /** Only `HLT` stops the loop: a run that starts running and stops had its
      last pass fetch the `HLT` opcode at the final program counter. */
  lemma {:induction false} StopsOnlyAtHalt(s: Cpu, fuel: nat)
    requires s.running && Run(s, fuel).Stopped?
    ensures InRange(|s.ram|, Run(s, fuel).cpu.pc)
    ensures Run(s, fuel).cpu.ram[Slot(|s.ram|, Run(s, fuel).cpu.pc)] == HLT
    decreases fuel
  {
    var t := Step(s).value;
    if t.running {
      StopsOnlyAtHalt(t, fuel - 1);
    } else {
      assert Run(s, fuel).cpu == t;
      HaltKeepsPc(s);
    }
  }

  /** A pass that clears the running flag executed `HLT`, which leaves the
      program counter on the `HLT` byte. */
  lemma HaltKeepsPc(s: Cpu)
    requires s.running && Step(s).Ok? && !Step(s).value.running
    ensures InRange(|s.ram|, Step(s).value.pc) && Step(s).value.pc == s.pc
    ensures s.ram[Slot(|s.ram|, s.pc)] == HLT
  {
  }

  /** From a byte outside the opcode table the loop spins for ever: every
      fuel bound runs out, and the state stays the fetched one. */
  lemma {:induction false} UnknownOpcodeNeverStops(s: Cpu, fuel: nat)
    requires s.running && InRange(|s.ram|, s.pc) && Decode(Operand(s, 0)) == None
    ensures Run(s, fuel).OutOfFuel?
    ensures fuel > 0 ==> Run(s, fuel) == OutOfFuel(Fetched(s))
    decreases fuel
  {
    if fuel > 0 {
      UnknownOpcodeIsFixpoint(s);
      var t := Fetched(s);
      if fuel > 1 {
        UnknownOpcodeNeverStops(t, fuel - 1);
        assert Fetched(t) == t;
      }
    }
  }

  // ---------------------------------------------------------------------------
  // The built-in program
  // ---------------------------------------------------------------------------

  /** The state `CPU()` leaves before `run()`. */
  function Initial(): (s: Cpu)
    ensures New(8) == Ok(s)
  {
    DefaultMemorySize();
    New(8).value
  }

  /** The state after `run()` on the built-in program: register 0 holds 8,
      8 has been printed once, and the program counter rests on `HLT`. */
  function Final(): Cpu {
    Initial().(reg := [8, 0, 0, 0, 0, 0, 0, 0], pc := 5, running := false,
               mar := 5, mdr := HLT, out := [8])
  }

  /** `CPU().run()`: exactly three passes (LDI, PRN, HLT) end the loop. */
  lemma BuiltInProgram()
    ensures Run(Initial(), 2).OutOfFuel?
    ensures Run(Initial(), 3) == Stopped(Final())
    ensures Final().out == [8] && Final().reg[0] == 8 && Final().pc == 5 && !Final().running
  {
    var s0 := Initial();
    assert |s0.ram| == 10 && |s0.reg| == 8;
    assert s0.ram[..6] == Program;
    assert s0.ram[0] == LDI && s0.ram[1] == 0 && s0.ram[2] == 8;
    assert s0.ram[3] == PRN && s0.ram[4] == 0 && s0.ram[5] == HLT;
    var s1 := Step(s0).value;
    assert s1 == s0.(reg := s0.reg[0 := 8], pc := 3, mar := 1, mdr := 0);
    var s2 := Step(s1).value;
    assert s2 == s1.(pc := 5, mar := 4, mdr := 0, out := [8]);
    var s3 := Step(s2).value;
    assert s3 == s2.(running := false, mar := 5, mdr := HLT);
    assert s0.reg[0 := 8] == [8, 0, 0, 0, 0, 0, 0, 0];
  }

  /** With any fuel of three or more the built-in program ends the same way. */
  lemma BuiltInProgramAnyFuel(fuel: nat)
    requires fuel >= 3
    ensures Run(Initial(), fuel) == Stopped(Final())
  {
    BuiltInProgram();
    MoreFuel(Initial(), 3, fuel);
  }
}
